=== FILE: README.md ===
# Blog SaaS server actions — a Dafny model

This project models the server-action layer of a multi-tenant blogging
dashboard and the two read paths of its dashboard pages. Users own *sites*
(blogs with a globally unique subdirectory) and *posts* (articles filed
under a site). A subscription decides how many sites a user may create.

The database is an immutable `Store` holding the Site and Post tables as
sequences of rows in storage order (a map keyed by id, plus the scan order
that `findMany` needs) and the Subscription table as a map from user id to
status. Each action is a pure function from the store, the caller's user id
and the submitted form fields to a `Step`: an `Outcome` and the store that
follows. An outcome is one of:

- `Redirect(path)`: Next.js `redirect`;
- `Reply(errors)`: the validation reply echoed to the form;
- `Thrown(fault)`: an error that escapes the action.

Validation schemas and `JSON.parse` are passed in as functions. The id the
database generates and the creation time are plain parameters.

Modules:

- `Records`: rows, store, form data, outcomes.
- `Tables`: filtered scan, rewrite, column uniqueness.
- `Quota`: the site-creation gate.
- `SiteActions`, `PostActions`: the actions.
- `SiteProperties`, `PostProperties`: lemmas about the actions.
- `Integrity`: the database constraints as a store invariant that every
  action preserves.
- `Dashboard`: `findMany` with owner filter, newest-first order and `take`,
  plus the two pages' `getData` and the sites page's guard.

An edit or delete whose `id AND userId` filter matches no row throws
Prisma's "record not found" error, and no redirect is issued.
`CreateSiteAction` never returns the validation reply; see Findings.

## Model

| member | source | states |
|---|---|---|
| Quota.SubscriptionStatus | app/actions.ts:15-22 | the status is present exactly when the caller has a subscription row, and is that row's status |
| Quota.OwnedSites | app/actions.ts:23-27 | exactly the caller's sites: every row returned is the caller's, every row of the caller's is returned |
| Quota.MayCreateSite | app/actions.ts:30-41 | the gate allows creation iff the status is exactly "active" or the caller owns no site; a missing subscription counts as not active |
| Quota.GateCases | app/actions.ts:30-41 | an active plan is never capped; a non-active caller may create a first site and no further one |
| Quota.GateOnStore | app/actions.ts:14-41 | on a store: allowed iff the caller's subscription row says "active" or no site in the table belongs to the caller |
| SiteActions.ValidateSite | app/actions.ts:43-62 | valid iff the field checks pass and no site has the submitted subdirectory; a taken subdirectory on otherwise valid input yields an error on the subdirectory field; field-check errors pass through |
| SiteActions.InsertSite | app/actions.ts:64-73 | the insert throws a unique-constraint error iff the id or subdirectory is already present; otherwise exactly one row is appended and nothing else changes |
| SiteActions.CreateSite | app/actions.ts:43-74 | an invalid submission yields its reply; an insert happens only after validation and appends the caller's site built from the validated name, description and subdirectory |
| SiteActions.CreateSiteAction | app/actions.ts:11-76 | the outcome is the sites list, the pricing page or a unique-constraint error, never a reply; pricing is chosen iff the gate denies; any outcome other than the sites list leaves the store unchanged; posts and subscriptions never change |
| SiteActions.CreateSiteActionIntended | app/actions.ts:30-75 | corrected action: a reply is returned iff the gate allows and validation fails, with the store unchanged; on every other input it agrees with the action as written |
| SiteActions.UpdateImage | app/actions.ts:146-160 | only the caller's site with the submitted id changes, and on it only `imageUrl` (null when the field is absent); no match throws not-found with the store unchanged; a missing id throws; the redirect is that site's page |
| SiteActions.DeleteSite | app/actions.ts:162-173 | redirects to the sites list iff the submitted id names a site of the caller and, under a restricting schema, no post refers to it; on success exactly the other sites remain and, under a cascading schema, exactly the posts not filed under it; a restricted site with posts throws a foreign-key error; a missing id or no match throws with the store unchanged; never a reply |
| SiteProperties.GateDenial | app/actions.ts:30-37 | a caller without an active plan who owns a site is redirected to pricing and the store is unchanged |
| SiteProperties.SwallowedReply | app/actions.ts:30-75 | past the gate, a validation failure makes createSite reply, and the action still redirects to the sites list with the store unchanged |
| SiteProperties.TakenSubdirectoryRejected | app/actions.ts:43-62 | a submitted subdirectory held by any site fails validation, with an error on that field when the other fields are valid; no site is written |
| SiteProperties.SiteCreated | app/actions.ts:64-75 | a gated-in submission that validates, whose submitted and validated subdirectories are both free and whose id is fresh, appends exactly one site with the caller as owner, the validated fields and no image; existing sites keep their positions and values |
| SiteProperties.InsertThrowsOnlyOnMismatch | app/actions.ts:46-73 | the database constraint is reached only if the generated id clashes or the validated subdirectory differs from the raw field the uniqueness check looked up |
| SiteProperties.SwallowedReplyExample | app/actions.ts:30-75 | concrete case: a free user's first, invalid submission lands on the sites list as written, while the corrected action returns the errors |
| SiteProperties.IntendedDiffersOnlyOnReply | app/actions.ts:30-75 | the corrected and as-written actions differ exactly when the corrected one replies, and they always leave the same store |
| SiteProperties.UpdateImageIsolation | app/actions.ts:149-157 | other users' sites never change; every site keeps all columns but `imageUrl`; a changed site has the submitted id |
| SiteProperties.UpdateForeignSiteFails | app/actions.ts:149-157 | with unique site ids, naming another user's site throws not-found and changes nothing |
| SiteProperties.DeleteSiteIsolation | app/actions.ts:165-172 | after a delete, every other site survives and the deleted one is gone; the only posts removed are those filed under the deleted site, whoever wrote them |
| PostActions.CreatePostAction | app/actions.ts:78-103 | a reply iff the input is invalid, with the store unchanged; unparsable content throws; a missing siteId throws; success iff valid, parsable, siteId present, id fresh and the site exists, with no ownership test on the site; one post is appended, with the caller as owner and the form's siteId; redirect to that site's page |
| PostActions.EditPostActions | app/actions.ts:105-131 | a reply iff the input is invalid; unparsable content and a missing articleId each throw; success iff valid, parsable, articleId present and the caller owns a post with that id; matched posts get the submitted columns, all others stay; no match throws not-found with the store unchanged; the redirect uses the form's siteId |
| PostActions.DeletePost | app/actions.ts:133-144 | success iff the caller owns a post with the submitted id; only those posts are removed; no match throws not-found with the store unchanged; the redirect uses the form's siteId |
| PostProperties.PostIntoForeignSite | app/actions.ts:90-102 | a valid post naming another user's existing site is filed under that site, owned by the caller |
| PostProperties.EditPostIsolation | app/actions.ts:116-128 | an edit keeps every post's id, owner, site and creation time; a post that changes is the caller's post with the submitted id |
| PostProperties.EditForeignPostFails | app/actions.ts:116-120 | with unique post ids, editing another user's post throws not-found and changes nothing |
| PostProperties.DeleteForeignPostFails | app/actions.ts:136-141 | with unique post ids, deleting another user's post throws not-found and changes nothing |
| PostProperties.DeletePostIsolation | app/actions.ts:136-141 | a delete keeps every other post, removes the matched one and shrinks the table |
| PostProperties.RedirectFollowsForm | app/actions.ts:143 | without a siteId field, a successful delete redirects to "/dashboard/sites/null" |
| Integrity.CreateSiteKeepsWellFormed | app/actions.ts:64-73 | site creation keeps site ids, subdirectories and post ids unique and every post pointing at a site |
| Integrity.UpdateImageKeepsWellFormed | app/actions.ts:149-157 | the image update keeps the store invariant |
| Integrity.DeleteSiteKeepsWellFormed | app/actions.ts:165-170 | site deletion keeps the store invariant under both referential actions |
| Integrity.CreatePostKeepsWellFormed | app/actions.ts:90-100 | post creation keeps the store invariant |
| Integrity.EditPostKeepsWellFormed | app/actions.ts:116-128 | post editing keeps the store invariant |
| Integrity.DeletePostKeepsWellFormed | app/actions.ts:136-141 | post deletion keeps the store invariant |
| Dashboard.InsertByDate | app/dashboard/sites/page.tsx:18-20 | inserting into a newest-first list gives a newest-first list with exactly one more occurrence of the row |
| Dashboard.SortByDate | app/dashboard/sites/page.tsx:18-20 | the result is a permutation of the input, ordered by `createdAt` descending |
| Dashboard.Take | app/dashboard/page.tsx:19 | the first min(n, length) rows |
| Tables.Where | app/dashboard/page.tsx:13-15 | the filter keeps every matching row with its full multiplicity, and nothing the table does not hold |
| Dashboard.FindMany | app/dashboard/page.tsx:12-20 | every row returned matches the filter and is in the table; newest first; without `take` the result is a permutation of the filtered rows; with `take` it is the first min(take, matches) rows of the same newest-first order |
| Dashboard.TakeLeavesOlder | app/dashboard/page.tsx:16-19 | a matching row that `take` cuts off is no newer than any row returned |
| Dashboard.UserSites | app/dashboard/sites/page.tsx:13-24 | exactly the user's sites, newest first |
| Dashboard.UserSitesExact | app/dashboard/sites/page.tsx:14-17 | for every site value, the result holds it as many times as the Site table does when it belongs to the user, and not at all otherwise |
| Dashboard.UserPosts | app/dashboard/page.tsx:21-29 | newest first; every post value occurs as many times as in the Post table when it belongs to the user, and not at all otherwise |
| Dashboard.RecentActivity | app/dashboard/page.tsx:10-33 | at most three sites and three posts, all the user's, each list newest first |
| Dashboard.RecentIsPrefix | app/dashboard/page.tsx:11-30 | each list is a prefix of the user's full newest-first list: three rows, or all of them when the user has fewer |
| Dashboard.RecentSitesAreNewest | app/dashboard/page.tsx:12-20 | no site of the user left out of the overview is newer than one shown |
| Dashboard.RecentPostsAreNewest | app/dashboard/page.tsx:21-29 | no post of the user left out of the overview is newer than one shown |
| Dashboard.SitesPage | app/dashboard/sites/page.tsx:26-56 | no session user iff redirect to login; the empty state iff the user has no sites; a signed-in user gets the card list iff they have a site, with one card per site, in order, carrying its name, description, image and link |
| Dashboard.LoginGuardIgnoresStore | app/dashboard/sites/page.tsx:27-32 | without a session user, the outcome is the login redirect whatever the store holds, so no query result can matter |

## Left out

- `CreateSubscription` (app/actions.ts:176-222) is not modelled. It consists of billing-provider calls and URLs that depend on the environment. Its check-then-create race is a concurrency matter.
- Session resolution (`requireUser`, `getKindeServerSession`): the caller's user id is a parameter. For the sites page, the session user is an `Option` parameter.
- The validation schemas are not part of this model. Their field checks are an injected function.
- `ValidateSite` assumes that the uniqueness refinement runs only after the field checks pass, and that it adds one error on the subdirectory field. The wording of that error is a placeholder.
- `JSON.parse` is an injected partial function. A failure becomes `Thrown(MalformedContent)` before any write.
- Id generation and `createdAt` are parameters (`newId`, `now`). An id clash becomes a unique-constraint error, as the database would report it.
- `Promise.all` is modelled as two sequential reads. There is nothing concurrent to verify.
- The gate's two reads and the insert are not atomic, so two concurrent first-site requests could both pass the gate. This race is a concurrency matter and is not modelled.
- `DeleteSite`: the database schema is not part of this model, so it is unknown what happens to a deleted site's posts. The referential action is a parameter (`Cascade` or `Restrict`).
- Users table: the User→Site and User→Post references are not modelled.
- Post slugs: their uniqueness scope is not visible, so slugs carry no constraint.
- Ties between equal `createdAt` values: the model breaks them by storage order, while the database leaves their order open on every query. `Dashboard.RecentIsPrefix` therefore assumes that the `take: 3` query and the full query order equal dates alike. `Dashboard.RecentSitesAreNewest` and `Dashboard.RecentPostsAreNewest` hold whatever the tie order.
- Rendering: JSX is left out. For the sites page, the model keeps only the branch that is chosen and the fields of each card. For the overview page, it keeps only `getData`.
- Context pages are not part of this model: the site page, the public blog page, the delete page and the article editor form. Neither are the nav constants.
- SiteActions.IsSubdirectoryUnique: an absent subdirectory field is treated as unused, not as a `MissingArgument` error. The site schema is not part of this model; it is assumed to reject a missing subdirectory before its uniqueness callback runs the lookup at app/actions.ts:47-51.
- A missing form field (`formData.get` returning null) has three modelled effects:
  - where a query needs a value, it throws `MissingArgument`;
  - inside a redirect template, it prints as "null";
  - for `imageUrl`, it stores null.

## Findings

| source | as written | input that shows it | evidently intended | confidence | as-written member | corrected member |
|---|---|---|---|---|---|---|
| app/actions.ts:33-75 | the reply returned by `createSite()` is awaited and dropped, so the action always reaches `redirect('/dashboard/sites')` | a free user with no sites submits a form the schema rejects (for example a missing name): they land on the sites list, no error is shown, and no site is created | return the validation reply to the form, as `CreatePostAction` does | high; not executed | SiteProperties.SwallowedReplyExample | SiteActions.CreateSiteActionIntended |

=== FILE: dashboard.dfy ===
/** The read path of the dashboard: `findMany` with an owner filter, newest
    first by `createdAt`, optionally cut to the first few rows; the
    overview page's three newest sites and posts; and the sites page with
    its login guard and its empty-state / card-list choice. */
module Dashboard {
  import opened Records
  import opened Tables
  import opened Quota

  /** Rows ordered by `at` descending. */
  predicate NewestFirst<T>(rows: seq<T>, at: T -> int)
  {
    forall i, j :: 0 <= i < j < |rows| ==> at(rows[i]) >= at(rows[j])
  }

  /** `x` placed in a newest-first sequence before the first row that is
      not newer than it. */
  function InsertByDate<T>(x: T, sorted: seq<T>, at: T -> int): (r: seq<T>)
    requires NewestFirst(sorted, at)
    ensures |r| == |sorted| + 1
    ensures multiset(r) == multiset(sorted) + multiset{x}
    ensures NewestFirst(r, at)
  {
    if |sorted| == 0 || at(sorted[0]) <= at(x) then
      [x] + sorted
    else
      var rest := InsertByDate(x, sorted[1..], at);
      assert forall k :: 0 <= k < |rest| ==> at(sorted[0]) >= at(rest[k]) by {
        forall k | 0 <= k < |rest|
          ensures at(sorted[0]) >= at(rest[k])
        {
          assert rest[k] in multiset(rest);
          if rest[k] != x {
            assert rest[k] in multiset(sorted[1..]);
            var m :| 0 <= m < |sorted[1..]| && sorted[1..][m] == rest[k];
            assert sorted[m + 1] == rest[k];
          }
        }
      }
      assert sorted == [sorted[0]] + sorted[1..];
      [sorted[0]] + rest
  }

  /** `orderBy: { createdAt: 'desc' }`. The database leaves rows with
      equal dates in no particular order; here an earlier row of the input
      comes first. Any fixed choice will do; `RecentIsPrefix` relies on the
      `take` query and the full query making the same one. */
  function SortByDate<T>(rows: seq<T>, at: T -> int): (r: seq<T>)
    ensures |r| == |rows|
    ensures multiset(r) == multiset(rows)
    ensures NewestFirst(r, at)
  {
    if |rows| == 0 then []
    else
      assert rows == [rows[0]] + rows[1..];
      InsertByDate(rows[0], SortByDate(rows[1..], at), at)
  }

  /** `take: n`: the first n rows, or all of them when there are fewer. */
  function Take<T>(rows: seq<T>, n: nat): (r: seq<T>)
    ensures |r| == if |rows| < n then |rows| else n
    ensures r == rows[..|r|]
  {
    if |rows| < n then rows else rows[..n]
  }

  /** A row of the sorted scan is a matching row of the table. */
  lemma SortedRowMatches<T>(rows: seq<T>, where: T -> bool, at: T -> int, x: T)
    requires x in SortByDate(Where(rows, where), at)
    ensures where(x) && x in rows
  {
    assert x in multiset(Where(rows, where));
  }

  /** `findMany({ where, orderBy: { createdAt: 'desc' }, take })`. */
  function FindMany<T>(rows: seq<T>, where: T -> bool, at: T -> int, take: Option<nat>): (r: seq<T>)
    ensures forall i :: 0 <= i < |r| ==> where(r[i]) && r[i] in rows
    ensures NewestFirst(r, at)
    ensures take.None? ==> multiset(r) == multiset(Where(rows, where))
    ensures take.Some? ==> |r| <= take.value
    ensures take.Some? ==> |r| == if |Where(rows, where)| < take.value then |Where(rows, where)| else take.value
    ensures take.Some? ==> r == SortByDate(Where(rows, where), at)[..|r|]
  {
    var sorted := SortByDate(Where(rows, where), at);
    forall i | 0 <= i < |sorted|
      ensures where(sorted[i]) && sorted[i] in rows
    {
      SortedRowMatches(rows, where, at, sorted[i]);
    }
    match take
    case None => sorted
    case Some(n) => Take(sorted, n)
  }

  function SiteCreatedAt(s: Site): int { s.createdAt }
  function PostCreatedAt(p: Post): int { p.createdAt }

  function PostOwner(user: string): Post -> bool { (p: Post) => p.userId == user }

  /** The sites page's `getData`: every site of `user`, newest first. */
  function UserSites(st: Store, user: string): (r: seq<Site>)
    ensures forall i :: 0 <= i < |r| ==> r[i].userId == user && r[i] in st.sites
    ensures forall i :: 0 <= i < |st.sites| && st.sites[i].userId == user ==> st.sites[i] in r
    ensures NewestFirst(r, SiteCreatedAt)
  {
    var r := FindMany(st.sites, SiteOwner(user), SiteCreatedAt, None);
    assert forall i :: 0 <= i < |st.sites| && st.sites[i].userId == user
             ==> st.sites[i] in multiset(Where(st.sites, SiteOwner(user)));
    r
  }

  /** The sites page's `getData` returns each of the user's sites exactly as
      many times as the table holds it, and nothing else. */
  lemma UserSitesExact(st: Store, user: string)
    ensures forall s: Site :: multiset(UserSites(st, user))[s]
                                == if s.userId == user then multiset(st.sites)[s] else 0
  {
    var r := UserSites(st, user);
    var w := Where(st.sites, SiteOwner(user));
    forall s: Site
      ensures multiset(r)[s] == if s.userId == user then multiset(st.sites)[s] else 0
    {
      if s in w {
        var i :| 0 <= i < |w| && w[i] == s;
        assert SiteOwner(user)(s);
        var k :| 0 <= k < |st.sites| && st.sites[k] == s;
        assert multiset(w)[st.sites[k]] == multiset(st.sites)[st.sites[k]];
      }
    }
  }

  /** All of a user's posts, newest first: each of them exactly as many
      times as the table holds it, and nothing else. */
  function UserPosts(st: Store, user: string): (r: seq<Post>)
    ensures forall i :: 0 <= i < |r| ==> r[i].userId == user && r[i] in st.posts
    ensures NewestFirst(r, PostCreatedAt)
    ensures forall p: Post :: multiset(r)[p] == if p.userId == user then multiset(st.posts)[p] else 0
  {
    var r := FindMany(st.posts, PostOwner(user), PostCreatedAt, None);
    var w := Where(st.posts, PostOwner(user));
    assert forall p: Post :: multiset(r)[p] == if p.userId == user then multiset(st.posts)[p] else 0 by {
      forall p: Post
        ensures multiset(r)[p] == if p.userId == user then multiset(st.posts)[p] else 0
      {
        if p in w {
          var i :| 0 <= i < |w| && w[i] == p;
          assert PostOwner(user)(p);
          var k :| 0 <= k < |st.posts| && st.posts[k] == p;
          assert multiset(w)[st.posts[k]] == multiset(st.posts)[st.posts[k]];
        }
      }
    }
    r
  }

  datatype Overview = Overview(sites: seq<Site>, articles: seq<Post>)

  /** The overview page's `getData`: the user's three newest sites and
      three newest posts. */
  function RecentActivity(st: Store, user: string): (r: Overview)
    ensures |r.sites| <= 3 && |r.articles| <= 3
    ensures forall i :: 0 <= i < |r.sites| ==> r.sites[i].userId == user
    ensures forall i :: 0 <= i < |r.articles| ==> r.articles[i].userId == user
    ensures NewestFirst(r.sites, SiteCreatedAt) && NewestFirst(r.articles, PostCreatedAt)
  {
    Overview(FindMany(st.sites, SiteOwner(user), SiteCreatedAt, Some(3)),
             FindMany(st.posts, PostOwner(user), PostCreatedAt, Some(3)))
  }

  /** The overview is the head of the full newest-first lists: three rows,
      or all of them when the user has fewer than three. */
  lemma RecentIsPrefix(st: Store, user: string)
    ensures var r := RecentActivity(st, user);
            var sites := UserSites(st, user);
            var posts := UserPosts(st, user);
            && r.sites == sites[..|r.sites|]
            && r.articles == posts[..|r.articles|]
            && |r.sites| == (if |sites| < 3 then |sites| else 3)
            && |r.articles| == (if |posts| < 3 then |posts| else 3)
  {
  }

  /** A row of a newest-first list that is not among its first `n` rows is
      no newer than any of them. */
  lemma PrefixHoldsNewest<T>(all: seq<T>, n: nat, at: T -> int, x: T)
    requires NewestFirst(all, at) && n <= |all|
    requires x in all && x !in all[..n]
    ensures forall i :: 0 <= i < n ==> at(all[i]) >= at(x)
  {
    var j :| 0 <= j < |all| && all[j] == x;
  }

  /** A matching row that `findMany` with `take` leaves out is no newer than
      any row it returns. */
  lemma TakeLeavesOlder<T>(rows: seq<T>, where: T -> bool, at: T -> int, n: nat, x: T)
    requires x in rows && where(x)
    requires x !in FindMany(rows, where, at, Some(n))
    ensures var shown := FindMany(rows, where, at, Some(n));
            forall i :: 0 <= i < |shown| ==> at(shown[i]) >= at(x)
  {
    var sorted := SortByDate(Where(rows, where), at);
    assert x in multiset(sorted);
    PrefixHoldsNewest(sorted, |Take(sorted, n)|, at, x);
  }

  /** Nothing newer is left out: every site of the user missing from the
      overview is no newer than each site shown. */
  lemma {:induction false} RecentSitesAreNewest(st: Store, user: string)
    ensures var shown := RecentActivity(st, user).sites;
            forall k, i :: 0 <= k < |st.sites| && st.sites[k].userId == user && st.sites[k] !in shown
                           && 0 <= i < |shown|
                           ==> shown[i].createdAt >= st.sites[k].createdAt
  {
    var shown := RecentActivity(st, user).sites;
    forall k | 0 <= k < |st.sites| && st.sites[k].userId == user && st.sites[k] !in shown
      ensures forall i :: 0 <= i < |shown| ==> SiteCreatedAt(shown[i]) >= SiteCreatedAt(st.sites[k])
    {
      TakeLeavesOlder(st.sites, SiteOwner(user), SiteCreatedAt, 3, st.sites[k]);
    }
  }

  /** The same for posts. */
  lemma {:induction false} RecentPostsAreNewest(st: Store, user: string)
    ensures var shown := RecentActivity(st, user).articles;
            forall k, i :: 0 <= k < |st.posts| && st.posts[k].userId == user && st.posts[k] !in shown
                           && 0 <= i < |shown|
                           ==> shown[i].createdAt >= st.posts[k].createdAt
  {
    var shown := RecentActivity(st, user).articles;
    forall k | 0 <= k < |st.posts| && st.posts[k].userId == user && st.posts[k] !in shown
      ensures forall i :: 0 <= i < |shown| ==> PostCreatedAt(shown[i]) >= PostCreatedAt(st.posts[k])
    {
      TakeLeavesOlder(st.posts, PostOwner(user), PostCreatedAt, 3, st.posts[k]);
    }
  }

  /** One card of the site list: title, description, image (the default
      picture when null) and the link to the site's page. */
  datatype Card = Card(title: string, description: string, image: Option<string>, href: string)

  /** What the sites page shows. */
  datatype Page = GoTo(path: string) | EmptyState | SiteList(cards: seq<Card>)

  /** `SitesPage`: without a session user, a redirect to login before any
      query; otherwise the empty state or one card per site. */
  function SitesPage(sessionUser: Option<string>, st: Store): (p: Page)
    ensures sessionUser.None? <==> p == GoTo(LoginPath)
    ensures sessionUser.Some? ==> (p == EmptyState <==> |UserSites(st, sessionUser.value)| == 0)
    ensures sessionUser.Some? ==> (p.SiteList? <==> |UserSites(st, sessionUser.value)| > 0)
    ensures p.SiteList? ==>
              var data := UserSites(st, sessionUser.value);
              && |p.cards| == |data|
              && forall i :: 0 <= i < |data| ==>
                   p.cards[i].title == data[i].name
                   && p.cards[i].description == data[i].description
                   && p.cards[i].href == SitesPath + "/" + data[i].id
                   && p.cards[i].image == data[i].imageUrl
  {
    match sessionUser
    case None => GoTo(LoginPath)
    case Some(user) =>
      var data := UserSites(st, user);
      if |data| == 0 then EmptyState
      else SiteList(seq(|data|, i requires 0 <= i < |data| =>
                      Card(data[i].name, data[i].description, data[i].imageUrl,
                           SitePath(Some(data[i].id)))))
  }

  /** The login guard reads nothing: the store cannot influence it. */
  lemma LoginGuardIgnoresStore(a: Store, b: Store)
    ensures SitesPage(None, a) == SitesPage(None, b) == GoTo(LoginPath)
  {
  }
}

=== FILE: integrity.dfy ===
/** The database's integrity constraints as a store invariant, and the proof
    that every action keeps it: site ids, site subdirectories and post ids
    are unique, and every post refers to an existing site. */
module Integrity {
  import opened Records
  import opened Tables
  import opened SiteActions
  import opened PostActions
  import opened SiteProperties

  /** Every post's `siteId` names a site in the store. */
  predicate PostsReferToSites(st: Store)
  {
    forall i :: 0 <= i < |st.posts| ==> HasKey(st.sites, SiteId, st.posts[i].siteId)
  }

  predicate WellFormed(st: Store)
  {
    && UniqueBy(st.sites, SiteId)
    && UniqueBy(st.sites, Subdirectory)
    && UniqueBy(st.posts, PostId)
    && PostsReferToSites(st)
  }

  lemma CreateSiteKeepsWellFormed(st: Store, caller: string, form: FormData,
                                  format: FormData -> Submission<SiteInput>, newId: string, now: int)
    requires WellFormed(st)
    ensures WellFormed(CreateSiteAction(st, caller, form, format, newId, now).store)
  {
  }

  lemma UpdateImageKeepsWellFormed(st: Store, caller: string, form: FormData)
    requires WellFormed(st)
    ensures WellFormed(UpdateImage(st, caller, form).store)
  {
  }

  lemma DeleteSiteKeepsWellFormed(st: Store, caller: string, form: FormData, onDelete: OnDelete)
    requires WellFormed(st)
    ensures WellFormed(DeleteSite(st, caller, form, onDelete).store)
  {
    var r := DeleteSite(st, caller, form, onDelete);
    if r.outcome.Redirect? {
      var sid := form["siteId"];
      var keep := (s: Site) => !SiteOwnedBy(sid, caller)(s);
      WhereKeepsUnique(st.sites, keep, SiteId);
      WhereKeepsUnique(st.sites, keep, Subdirectory);
      if onDelete == Cascade {
        WhereKeepsUnique(st.posts, (p: Post) => !PostsOfSite(sid)(p), PostId);
      }
      DeleteSiteIsolation(st, caller, form, onDelete);
      SurvivorsKeepTheirSites(st, r.store, sid, caller);
    }
  }

  /** After the caller's site `sid` is removed, a post that survived and
      was not filed under `sid` still finds its site. */
  lemma SurvivorsKeepTheirSites(st: Store, st': Store, sid: string, caller: string)
    requires PostsReferToSites(st)
    requires forall s :: s in st.sites && !(s.id == sid && s.userId == caller) ==> s in st'.sites
    requires forall p :: p in st'.posts ==> p in st.posts && p.siteId != sid
    ensures PostsReferToSites(st')
  {
  }

  lemma CreatePostKeepsWellFormed(st: Store, caller: string, form: FormData,
                                  schema: FormData -> Submission<PostInput>,
                                  parseJson: string -> Option<Json>, newId: string, now: int)
    requires WellFormed(st)
    ensures WellFormed(CreatePostAction(st, caller, form, schema, parseJson, newId, now).store)
  {
  }

  lemma EditPostKeepsWellFormed(st: Store, caller: string, form: FormData,
                                schema: FormData -> Submission<PostInput>,
                                parseJson: string -> Option<Json>)
    requires WellFormed(st)
    ensures WellFormed(EditPostActions(st, caller, form, schema, parseJson).store)
  {
  }

  lemma DeletePostKeepsWellFormed(st: Store, caller: string, form: FormData)
    requires WellFormed(st)
    ensures WellFormed(DeletePost(st, caller, form).store)
  {
    var r := DeletePost(st, caller, form);
    if r.outcome.Redirect? {
      var keep := (p: Post) => !PostOwnedBy(form["articleId"], caller)(p);
      WhereKeepsUnique(st.posts, keep, PostId);
      forall i | 0 <= i < |r.store.posts|
        ensures HasKey(r.store.sites, SiteId, r.store.posts[i].siteId)
      {
        assert r.store.posts[i] in st.posts;
      }
    }
  }
}

=== FILE: post_actions.dfy ===
/** The server actions on the Post table: creating, editing and deleting an
    article. Edit and delete filter on the post's id AND the caller's user
    id together; creation takes the site id straight from the form. */
module PostActions {
  import opened Records
  import opened Tables
  import SiteActions

  function PostId(p: Post): string { p.id }

  /** The filter of every post mutation: this id, owned by this caller. */
  function PostOwnedBy(id: string, caller: string): Post -> bool
  {
    (p: Post) => p.id == id && p.userId == caller
  }

  /** `CreatePostAction`: validate the form, parse the article JSON, insert a
      post owned by the caller in the site named by the form's `siteId`
      (whoever owns that site), then go to that site's page. */
  function CreatePostAction(st: Store, caller: string, form: FormData,
                            schema: FormData -> Submission<PostInput>,
                            parseJson: string -> Option<Json>, newId: string, now: int)
    : (r: Step)
    ensures r.store.sites == st.sites && r.store.subscriptions == st.subscriptions
    ensures !r.outcome.Redirect? ==> r.store == st
    ensures schema(form).Invalid? ==> r == Step(Reply(schema(form).errors), st)
    ensures r.outcome.Reply? <==> schema(form).Invalid?
    ensures (schema(form).Valid? && parseJson(schema(form).value.articleContent).None?)
              ==> r.outcome == Thrown(MalformedContent)
    ensures (&& schema(form).Valid?
             && parseJson(schema(form).value.articleContent).Some?
             && "siteId" !in form)
              ==> r.outcome == Thrown(MissingArgument("siteId"))
    ensures r.outcome.Redirect? <==>
              && schema(form).Valid?
              && parseJson(schema(form).value.articleContent).Some?
              && "siteId" in form
              && !HasKey(st.posts, PostId, newId)
              && HasKey(st.sites, SiteActions.SiteId, form["siteId"])
    ensures r.outcome.Redirect? ==>
              var v := schema(form).value;
              && r.outcome.path == SitesPath + "/" + form["siteId"]
              && |r.store.posts| == |st.posts| + 1
              && r.store.posts[..|st.posts|] == st.posts
              && r.store.posts[|st.posts|]
                 == Post(newId, v.title, v.smallDescription, v.slug,
                         parseJson(v.articleContent).value, Some(v.coverImage),
                         caller, form["siteId"], now)
  {
    match schema(form)
    case Invalid(errors) => Step(Reply(errors), st)
    case Valid(v) =>
      match parseJson(v.articleContent)
      case None => Step(Thrown(MalformedContent), st)
      case Some(doc) =>
        match Field(form, "siteId")
        case None => Step(Thrown(MissingArgument("siteId")), st)
        case Some(sid) =>
          if HasKey(st.posts, PostId, newId) then
            Step(Thrown(UniqueViolation), st)
          else if !HasKey(st.sites, SiteActions.SiteId, sid) then
            Step(Thrown(ForeignKeyViolation), st)
          else
            var post := Post(newId, v.title, v.smallDescription, v.slug, doc, Some(v.coverImage),
                             caller, sid, now);
            Step(Redirect(SitePath(Some(sid))), st.(posts := st.posts + [post]))
  }

  /** The columns an edit writes: everything the form supplies; id, owner,
      site and creation time stay. */
  function Edited(p: Post, v: PostInput, doc: Json): (q: Post)
    ensures q.id == p.id && q.userId == p.userId && q.siteId == p.siteId && q.createdAt == p.createdAt
    ensures q.title == v.title && q.smallDescription == v.smallDescription && q.slug == v.slug
    ensures q.articleContent == doc && q.image == Some(v.coverImage)
  {
    p.(title := v.title, smallDescription := v.smallDescription, slug := v.slug,
       articleContent := doc, image := Some(v.coverImage))
  }

  /** `EditPostActions`: validate, parse the article JSON, rewrite the
      caller's post with the submitted `articleId`, then go to the page of
      the site named by the form's `siteId`. */
  function EditPostActions(st: Store, caller: string, form: FormData,
                           schema: FormData -> Submission<PostInput>,
                           parseJson: string -> Option<Json>)
    : (r: Step)
    ensures r.store.sites == st.sites && r.store.subscriptions == st.subscriptions
    ensures |r.store.posts| == |st.posts|
    ensures !r.outcome.Redirect? ==> r.store == st
    ensures schema(form).Invalid? ==> r == Step(Reply(schema(form).errors), st)
    ensures r.outcome.Reply? <==> schema(form).Invalid?
    ensures (schema(form).Valid? && parseJson(schema(form).value.articleContent).None?)
              ==> r.outcome == Thrown(MalformedContent)
    ensures (&& schema(form).Valid?
             && parseJson(schema(form).value.articleContent).Some?
             && "articleId" !in form)
              ==> r.outcome == Thrown(MissingArgument("articleId"))
    ensures r.outcome.Redirect? <==>
              && schema(form).Valid?
              && parseJson(schema(form).value.articleContent).Some?
              && "articleId" in form
              && Any(st.posts, PostOwnedBy(form["articleId"], caller))
    ensures (&& schema(form).Valid?
             && parseJson(schema(form).value.articleContent).Some?
             && "articleId" in form
             && !Any(st.posts, PostOwnedBy(form["articleId"], caller)))
              ==> r.outcome == Thrown(RecordNotFound)
    ensures r.outcome.Redirect? ==>
              var v := schema(form).value;
              var doc := parseJson(v.articleContent).value;
              && r.outcome.path == SitePath(Field(form, "siteId"))
              && forall i :: 0 <= i < |st.posts| ==>
                   r.store.posts[i] ==
                     if PostOwnedBy(form["articleId"], caller)(st.posts[i])
                     then Edited(st.posts[i], v, doc)
                     else st.posts[i]
  {
    match schema(form)
    case Invalid(errors) => Step(Reply(errors), st)
    case Valid(v) =>
      match parseJson(v.articleContent)
      case None => Step(Thrown(MalformedContent), st)
      case Some(doc) =>
        match Field(form, "articleId")
        case None => Step(Thrown(MissingArgument("articleId")), st)
        case Some(aid) =>
          if !Any(st.posts, PostOwnedBy(aid, caller)) then
            Step(Thrown(RecordNotFound), st)
          else
            Step(Redirect(SitePath(Field(form, "siteId"))),
                 st.(posts := Rewrite(st.posts, PostOwnedBy(aid, caller), (p: Post) => Edited(p, v, doc))))
  }

  /** `DeletePost`: delete the caller's post with the submitted `articleId`,
      then go to the page of the site named by the form's `siteId`. */
  function DeletePost(st: Store, caller: string, form: FormData): (r: Step)
    ensures r.store.sites == st.sites && r.store.subscriptions == st.subscriptions
    ensures !r.outcome.Redirect? ==> r.store == st
    ensures "articleId" !in form ==> r.outcome == Thrown(MissingArgument("articleId"))
    ensures r.outcome.Redirect? <==> "articleId" in form && Any(st.posts, PostOwnedBy(form["articleId"], caller))
    ensures ("articleId" in form && !Any(st.posts, PostOwnedBy(form["articleId"], caller)))
              ==> r.outcome == Thrown(RecordNotFound)
    ensures r.outcome.Redirect? ==>
              && r.outcome.path == SitePath(Field(form, "siteId"))
              && r.store.posts == Where(st.posts, (p: Post) => !PostOwnedBy(form["articleId"], caller)(p))
  {
    match Field(form, "articleId")
    case None => Step(Thrown(MissingArgument("articleId")), st)
    case Some(aid) =>
      if !Any(st.posts, PostOwnedBy(aid, caller)) then
        Step(Thrown(RecordNotFound), st)
      else
        Step(Redirect(SitePath(Field(form, "siteId"))),
             st.(posts := Where(st.posts, (p: Post) => !PostOwnedBy(aid, caller)(p))))
  }
}

=== FILE: post_properties.dfy ===
/** What the post actions promise: a post can be filed under any existing
    site, an edit or delete touches only the caller's post with the
    submitted id, and an edit rewrites only the article's own columns. */
module PostProperties {
  import opened Records
  import opened Tables
  import opened PostActions
  import SiteActions

  /** No check that the caller owns the target site: a valid submission
      naming another user's site files a post, owned by the caller, under
      that site. */
  lemma PostIntoForeignSite(st: Store, caller: string, form: FormData,
                            schema: FormData -> Submission<PostInput>,
                            parseJson: string -> Option<Json>, newId: string, now: int, j: nat)
    requires schema(form).Valid? && parseJson(schema(form).value.articleContent).Some?
    requires "siteId" in form
    requires j < |st.sites| && st.sites[j].id == form["siteId"] && st.sites[j].userId != caller
    requires forall i :: 0 <= i < |st.posts| ==> st.posts[i].id != newId
    ensures var r := CreatePostAction(st, caller, form, schema, parseJson, newId, now);
            && r.outcome == Redirect(SitesPath + "/" + st.sites[j].id)
            && r.store.posts[|st.posts|].userId == caller
            && r.store.posts[|st.posts|].siteId == st.sites[j].id
  {
  }

  /** An edit changes at most the caller's post with the submitted id, and
      on it rewrites only title, short description, slug, content and
      image; id, owner, site and creation time are kept. */
  lemma EditPostIsolation(st: Store, caller: string, form: FormData,
                          schema: FormData -> Submission<PostInput>,
                          parseJson: string -> Option<Json>)
    ensures var r := EditPostActions(st, caller, form, schema, parseJson);
            forall i :: 0 <= i < |st.posts| ==>
              var (before, after) := (st.posts[i], r.store.posts[i]);
              && after.id == before.id
              && after.userId == before.userId
              && after.siteId == before.siteId
              && after.createdAt == before.createdAt
              && (after != before ==> "articleId" in form && before.id == form["articleId"]
                                      && before.userId == caller)
  {
  }

  /** Another user's post cannot be edited: with unique post ids, naming a
      post the caller does not own throws "record not found" (once the form
      validates and the content parses) and leaves the store as it was. */
  lemma EditForeignPostFails(st: Store, caller: string, form: FormData,
                             schema: FormData -> Submission<PostInput>,
                             parseJson: string -> Option<Json>, j: nat)
    requires UniqueBy(st.posts, PostId)
    requires schema(form).Valid? && parseJson(schema(form).value.articleContent).Some?
    requires "articleId" in form
    requires j < |st.posts| && st.posts[j].id == form["articleId"] && st.posts[j].userId != caller
    ensures EditPostActions(st, caller, form, schema, parseJson) == Step(Thrown(RecordNotFound), st)
  {
  }

  /** Another user's post cannot be deleted either. */
  lemma DeleteForeignPostFails(st: Store, caller: string, form: FormData, j: nat)
    requires UniqueBy(st.posts, PostId)
    requires "articleId" in form
    requires j < |st.posts| && st.posts[j].id == form["articleId"] && st.posts[j].userId != caller
    ensures DeletePost(st, caller, form) == Step(Thrown(RecordNotFound), st)
  {
  }

  /** A delete removes exactly the caller's post with the submitted id:
      every other post survives and that one is gone. */
  lemma DeletePostIsolation(st: Store, caller: string, form: FormData)
    requires DeletePost(st, caller, form).outcome.Redirect?
    ensures var r := DeletePost(st, caller, form);
            var aid := form["articleId"];
            && (forall i :: 0 <= i < |st.posts| && !(st.posts[i].id == aid && st.posts[i].userId == caller)
                  ==> st.posts[i] in r.store.posts)
            && (forall p :: p in r.store.posts ==> p in st.posts && !(p.id == aid && p.userId == caller))
            && |r.store.posts| < |st.posts|
  {
    var r := DeletePost(st, caller, form);
    var aid := form["articleId"];
    forall p | p in r.store.posts
      ensures p in st.posts && !(p.id == aid && p.userId == caller)
    {
      var k :| 0 <= k < |r.store.posts| && r.store.posts[k] == p;
      assert !PostOwnedBy(aid, caller)(r.store.posts[k]);
    }
    forall i | 0 <= i < |st.posts| && !(st.posts[i].id == aid && st.posts[i].userId == caller)
      ensures st.posts[i] in r.store.posts
    {
      assert !PostOwnedBy(aid, caller)(st.posts[i]);
    }
    var i :| 0 <= i < |st.posts| && PostOwnedBy(aid, caller)(st.posts[i]);
    WhereDropsMatch(st.posts, (p: Post) => !PostOwnedBy(aid, caller)(p), i);
  }

  /** Edit and delete redirect to the site the form names, not the site the
      post is filed under; a form without `siteId` leads to the literal
      path "/dashboard/sites/null". */
  lemma RedirectFollowsForm(st: Store, caller: string, form: FormData)
    requires "siteId" !in form
    requires DeletePost(st, caller, form).outcome.Redirect?
    ensures DeletePost(st, caller, form).outcome.path == "/dashboard/sites/null"
  {
  }
}

=== FILE: quota.dfy ===
/** The site-creation quota: a user on an active plan may create any number
    of sites; anyone else gets one free site. */
module Quota {
  import opened Records
  import opened Tables

  const Active: string := "active"

  /** The subscription status on record for `user`, if a row exists. */
  function SubscriptionStatus(st: Store, user: string): (r: Option<string>)
    ensures r.Some? <==> user in st.subscriptions
    ensures r.Some? ==> r.value == st.subscriptions[user]
  {
    if user in st.subscriptions then Some(st.subscriptions[user]) else None
  }

  /** The owner filter `where: { userId }` on the Site table. */
  function SiteOwner(user: string): Site -> bool { (s: Site) => s.userId == user }

  /** The sites `user` owns, in storage order. */
  function OwnedSites(st: Store, user: string): (r: seq<Site>)
    ensures forall i :: 0 <= i < |r| ==> r[i].userId == user && r[i] in st.sites
    ensures forall i :: 0 <= i < |st.sites| && st.sites[i].userId == user ==> st.sites[i] in r
  {
    Where(st.sites, SiteOwner(user))
  }

  /** The gate, branch for branch as the action evaluates it: a missing or
      non-active subscription allows creation only while the user owns no
      site; an active one always allows it. */
  function MayCreateSite(status: Option<string>, owned: nat): (allow: bool)
    ensures allow <==> status == Some(Active) || owned == 0
  {
    if status.None? || status.value != Active then
      owned < 1
    else
      // the status is "active", so the action's `else if` test always holds
      true
  }

  /** The gate's three cases as a table: paid users are never capped, a
      free user gets exactly one site. */
  lemma GateCases(n: nat, other: Option<string>)
    requires other != Some(Active)
    ensures MayCreateSite(Some(Active), n)
    ensures MayCreateSite(other, 0)
    ensures n > 0 ==> !MayCreateSite(other, n)
  {
  }

  /** The gate as applied to the store: allowed iff the caller's
      subscription row says "active" or the caller owns no site. */
  lemma GateOnStore(st: Store, user: string)
    ensures MayCreateSite(SubscriptionStatus(st, user), |OwnedSites(st, user)|)
        <==> (user in st.subscriptions && st.subscriptions[user] == Active)
             || (forall i :: 0 <= i < |st.sites| ==> st.sites[i].userId != user)
  {
    var owned := OwnedSites(st, user);
    if |owned| > 0 {
      assert owned[0] in st.sites;
    }
  }
}

=== FILE: records.dfy ===
/** The persistent store and the request/response vocabulary of the blog
    dashboard's server actions: the Site, Post and Subscription tables, the
    flat form data a browser submits, what a schema validator returns, and
    the ways an action can end (a redirect, a validation reply, or an error
    thrown by the database layer). */
module Records {

  datatype Option<+T> = None | Some(value: T)

  /** A parsed rich-text document. The editor's document tree is opaque to
      the actions: they only parse it from text and store it. */
  datatype Json =
    | JNull
    | JBool(b: bool)
    | JNumber(n: int)
    | JString(s: string)
    | JArray(items: seq<Json>)
    | JObject(members: seq<(string, Json)>)

  /** A row of the Site table. `imageUrl` is nullable; `subdirectory` is
      unique across all users. */
  datatype Site = Site(
    id: string,
    name: string,
    description: string,
    subdirectory: string,
    imageUrl: Option<string>,
    userId: string,
    createdAt: int)

  /** A row of the Post table; `siteId` refers to a row of the Site table. */
  datatype Post = Post(
    id: string,
    title: string,
    smallDescription: string,
    slug: string,
    articleContent: Json,
    image: Option<string>,
    userId: string,
    siteId: string,
    createdAt: int)

  /** The database. Each table is its rows in storage order; the Subscription
      table is keyed by user id and holds the free-text status. */
  datatype Store = Store(
    sites: seq<Site>,
    posts: seq<Post>,
    subscriptions: map<string, string>)

  /** Submitted form fields, by name. */
  type FormData = map<string, string>

  /** `formData.get(name)`: the field's value, or null when it was not sent. */
  function Field(form: FormData, name: string): (r: Option<string>)
    ensures r.Some? <==> name in form
    ensures r.Some? ==> r.value == form[name]
  {
    if name in form then Some(form[name]) else None
  }

  /** A value interpolated into a template literal: null prints as "null". */
  function Show(v: Option<string>): (r: string)
    ensures v.Some? ==> r == v.value
  {
    match v
    case Some(s) => s
    case None => "null"
  }

  /** Field-level validation errors: field name to messages. */
  type Errors = map<string, seq<string>>

  /** The outcome of parsing a form against a schema. */
  datatype Submission<+T> = Valid(value: T) | Invalid(errors: Errors)

  /** The typed value the site-creation schema produces. */
  datatype SiteInput = SiteInput(name: string, description: string, subdirectory: string)

  /** The typed value the post schema produces; `articleContent` is still
      the JSON text the editor serialised. */
  datatype PostInput = PostInput(
    title: string,
    smallDescription: string,
    slug: string,
    articleContent: string,
    coverImage: string)

  /** Errors that escape an action uncaught. */
  datatype Fault =
    | RecordNotFound            // an update or delete whose filter matched no row
    | UniqueViolation           // an insert clashing with a unique column
    | ForeignKeyViolation       // a post referring to no site, or a site still referred to
    | MalformedContent          // JSON.parse rejected the article content
    | MissingArgument(field: string)  // a null where the query needs a value

  /** How a server action ends: a navigation, the validation reply echoed to
      the form, or an uncaught error. */
  datatype Outcome = Redirect(path: string) | Reply(errors: Errors) | Thrown(fault: Fault)

  /** An action's outcome together with the store it leaves behind. */
  datatype Step = Step(outcome: Outcome, store: Store)

  const SitesPath: string := "/dashboard/sites"
  const PricingPath: string := "/dashboard/pricing"
  const LoginPath: string := "/api/auth/login"

  /** `/dashboard/sites/${siteId}` */
  function SitePath(siteId: Option<string>): (r: string)
    ensures siteId.Some? ==> r == SitesPath + "/" + siteId.value
  {
    SitesPath + "/" + Show(siteId)
  }
}

=== FILE: site_actions.dfy ===
/** The server actions on the Site table: creating a site behind the quota
    gate and the subdirectory-uniqueness check, replacing a site's cover
    image, and deleting a site. Every mutation filters on the site's id AND
    the caller's user id together. */
module SiteActions {
  import opened Records
  import opened Tables
  import opened Quota

  /** Message attached to the subdirectory field when it is taken. The
      wording lives in the validation schema, which is not part of this
      model; only the field it is attached to matters here. */
  const SubdirectoryTaken: string := "subdirectory is already taken"

  function SiteId(s: Site): string { s.id }
  function Subdirectory(s: Site): string { s.subdirectory }

  /** The schema's `isSubdirectoryUnique` callback: no site has the
      subdirectory exactly as submitted in the raw form field. An absent
      field matches no site. */
  predicate IsSubdirectoryUnique(st: Store, form: FormData)
  {
    match Field(form, "subdirectory")
    case None => true
    case Some(sub) => !HasKey(st.sites, Subdirectory, sub)
  }

  /** Site-creation validation: the schema's field checks (`format`, whose
      rules are not part of this model) followed by the uniqueness
      refinement, which rejects well-formed input whose subdirectory is
      already in use, with an error on the subdirectory field. */
  function ValidateSite(st: Store, form: FormData, format: FormData -> Submission<SiteInput>)
    : (r: Submission<SiteInput>)
    ensures r.Valid? <==> format(form).Valid? && IsSubdirectoryUnique(st, form)
    ensures r.Valid? ==> r.value == format(form).value
    ensures format(form).Invalid? ==> r == format(form)
    ensures (format(form).Valid? && !IsSubdirectoryUnique(st, form))
              ==> r.Invalid? && "subdirectory" in r.errors
  {
    match format(form)
    case Invalid(errors) => Invalid(errors)
    case Valid(v) =>
      if IsSubdirectoryUnique(st, form) then Valid(v)
      else Invalid(map["subdirectory" := [SubdirectoryTaken]])
  }

  /** What the inner `createSite` ends with. */
  datatype Created = Replied(errors: Errors) | Inserted(store: Store) | Failed(fault: Fault)

  /** `prisma.site.create`: the database refuses a row whose id or
      subdirectory is already present; otherwise the row is appended. */
  function InsertSite(st: Store, s: Site): (r: Created)
    ensures !r.Replied?
    ensures r.Failed? <==> HasKey(st.sites, SiteId, s.id) || HasKey(st.sites, Subdirectory, s.subdirectory)
    ensures r.Failed? ==> r.fault == UniqueViolation
    ensures r.Inserted? ==> r.store.posts == st.posts && r.store.subscriptions == st.subscriptions
    ensures r.Inserted? ==> |r.store.sites| == |st.sites| + 1
                            && r.store.sites[..|st.sites|] == st.sites
                            && r.store.sites[|st.sites|] == s
  {
    if HasKey(st.sites, SiteId, s.id) || HasKey(st.sites, Subdirectory, s.subdirectory) then
      Failed(UniqueViolation)
    else
      Inserted(st.(sites := st.sites + [s]))
  }

  /** The inner `createSite`: validate, then insert a site owned by the
      caller with the validated name, description and subdirectory, no
      image, the generated id `newId` and the creation time `now`. */
  function CreateSite(st: Store, caller: string, form: FormData,
                      format: FormData -> Submission<SiteInput>, newId: string, now: int)
    : (r: Created)
    ensures (ValidateSite(st, form, format).Invalid?)
              ==> r == Replied(ValidateSite(st, form, format).errors)
    ensures r.Inserted? ==>
              var v := format(form).value;
              && ValidateSite(st, form, format).Valid?
              && r.store == st.(sites := st.sites + [Site(newId, v.name, v.description, v.subdirectory, None, caller, now)])
  {
    match ValidateSite(st, form, format)
    case Invalid(errors) => Replied(errors)
    case Valid(v) => InsertSite(st, Site(newId, v.name, v.description, v.subdirectory, None, caller, now))
  }

  /** `CreateSiteAction`, as written: the gate decides between the pricing
      redirect and `createSite()`, whose reply is discarded, so every path
      that gets past the gate ends on the sites list unless the insert
      throws. */
  function CreateSiteAction(st: Store, caller: string, form: FormData,
                            format: FormData -> Submission<SiteInput>, newId: string, now: int)
    : (r: Step)
    ensures r.outcome in {Redirect(SitesPath), Redirect(PricingPath), Thrown(UniqueViolation)}
    ensures !r.outcome.Reply?
    ensures r.outcome != Redirect(SitesPath) ==> r.store == st
    ensures r.store.posts == st.posts && r.store.subscriptions == st.subscriptions
    ensures (r.outcome == Redirect(PricingPath))
              <==> !MayCreateSite(SubscriptionStatus(st, caller), |OwnedSites(st, caller)|)
  {
    var status := SubscriptionStatus(st, caller);
    var sites := OwnedSites(st, caller);
    if status.None? || status.value != Active then
      if |sites| < 1 then
        AfterCreateSite(st, CreateSite(st, caller, form, format, newId, now))
      else
        Step(Redirect(PricingPath), st)
    else
      AfterCreateSite(st, CreateSite(st, caller, form, format, newId, now))
  }

  /** The awaited `createSite()` value is dropped: a thrown insert error
      propagates and everything else reaches the sites-list redirect. */
  function AfterCreateSite(st: Store, c: Created): Step
  {
    match c
    case Failed(fault) => Step(Thrown(fault), st)
    case Replied(_) => Step(Redirect(SitesPath), st)
    case Inserted(st') => Step(Redirect(SitesPath), st')
  }

  /** `CreateSiteAction` as evidently intended: the validation reply is
      returned to the form instead of being dropped. */
  function CreateSiteActionIntended(st: Store, caller: string, form: FormData,
                                    format: FormData -> Submission<SiteInput>, newId: string, now: int)
    : (r: Step)
    ensures r.outcome.Reply? <==>
              MayCreateSite(SubscriptionStatus(st, caller), |OwnedSites(st, caller)|)
              && ValidateSite(st, form, format).Invalid?
    ensures r.outcome.Reply? ==> r == Step(Reply(ValidateSite(st, form, format).errors), st)
    ensures !r.outcome.Reply? ==> r == CreateSiteAction(st, caller, form, format, newId, now)
  {
    if !MayCreateSite(SubscriptionStatus(st, caller), |OwnedSites(st, caller)|) then
      Step(Redirect(PricingPath), st)
    else
      match CreateSite(st, caller, form, format, newId, now)
      case Replied(errors) => Step(Reply(errors), st)
      case Failed(fault) => Step(Thrown(fault), st)
      case Inserted(st') => Step(Redirect(SitesPath), st')
  }

  /** The filter of every site mutation: this id, owned by this caller. */
  function SiteOwnedBy(id: string, caller: string): Site -> bool
  {
    (s: Site) => s.id == id && s.userId == caller
  }

  /** `UpdateImage`: set `imageUrl` (null when the field is absent) on the
      caller's site with the submitted id, then go to that site's page. */
  function UpdateImage(st: Store, caller: string, form: FormData): (r: Step)
    ensures r.store.posts == st.posts && r.store.subscriptions == st.subscriptions
    ensures |r.store.sites| == |st.sites|
    ensures r.outcome.Redirect? <==> "siteId" in form && Any(st.sites, SiteOwnedBy(form["siteId"], caller))
    ensures !r.outcome.Redirect? ==> r.store == st
    ensures "siteId" !in form ==> r.outcome == Thrown(MissingArgument("siteId"))
    ensures ("siteId" in form && !Any(st.sites, SiteOwnedBy(form["siteId"], caller)))
              ==> r.outcome == Thrown(RecordNotFound)
    ensures r.outcome.Redirect? ==>
              && r.outcome.path == SitesPath + "/" + form["siteId"]
              && forall i :: 0 <= i < |st.sites| ==>
                   r.store.sites[i] ==
                     if SiteOwnedBy(form["siteId"], caller)(st.sites[i])
                     then st.sites[i].(imageUrl := Field(form, "imageUrl"))
                     else st.sites[i]
  {
    match Field(form, "siteId")
    case None => Step(Thrown(MissingArgument("siteId")), st)
    case Some(sid) =>
      if !Any(st.sites, SiteOwnedBy(sid, caller)) then
        Step(Thrown(RecordNotFound), st)
      else
        var image := Field(form, "imageUrl");
        Step(Redirect(SitePath(Some(sid))),
             st.(sites := Rewrite(st.sites, SiteOwnedBy(sid, caller), (s: Site) => s.(imageUrl := image))))
  }

  /** What the database does to a site's posts when the site is deleted;
      the schema declaring it is not part of this model, so both of
      Prisma's choices for a required relation are kept open. */
  datatype OnDelete = Cascade | Restrict

  function PostsOfSite(siteId: string): Post -> bool
  {
    (p: Post) => p.siteId == siteId
  }

  /** `DeleteSite`: delete the caller's site with the submitted id, then go
      to the sites list. */
  function DeleteSite(st: Store, caller: string, form: FormData, onDelete: OnDelete): (r: Step)
    ensures r.store.subscriptions == st.subscriptions
    ensures !r.outcome.Reply?
    ensures (&& onDelete == Restrict
             && "siteId" in form
             && Any(st.sites, SiteOwnedBy(form["siteId"], caller))
             && Any(st.posts, PostsOfSite(form["siteId"])))
              ==> r == Step(Thrown(ForeignKeyViolation), st)
    ensures "siteId" !in form ==> r == Step(Thrown(MissingArgument("siteId")), st)
    ensures ("siteId" in form && !Any(st.sites, SiteOwnedBy(form["siteId"], caller)))
              ==> r == Step(Thrown(RecordNotFound), st)
    ensures !r.outcome.Redirect? ==> r.store == st
    ensures r.outcome.Redirect? ==>
              && r.outcome.path == SitesPath
              && "siteId" in form
              && Any(st.sites, SiteOwnedBy(form["siteId"], caller))
              && r.store.sites == Where(st.sites, (s: Site) => !SiteOwnedBy(form["siteId"], caller)(s))
    ensures r.outcome.Redirect? && onDelete == Restrict ==> r.store.posts == st.posts
    ensures (onDelete == Restrict && "siteId" in form && Any(st.posts, PostsOfSite(form["siteId"])))
              ==> !r.outcome.Redirect?
    ensures r.outcome.Redirect? <==>
              && "siteId" in form
              && Any(st.sites, SiteOwnedBy(form["siteId"], caller))
              && !(onDelete == Restrict && Any(st.posts, PostsOfSite(form["siteId"])))
    ensures (r.outcome.Redirect? && onDelete == Cascade)
              ==> r.store.posts == Where(st.posts, (p: Post) => !PostsOfSite(form["siteId"])(p))
  {
    match Field(form, "siteId")
    case None => Step(Thrown(MissingArgument("siteId")), st)
    case Some(sid) =>
      if !Any(st.sites, SiteOwnedBy(sid, caller)) then
        Step(Thrown(RecordNotFound), st)
      else if onDelete == Restrict && Any(st.posts, PostsOfSite(sid)) then
        Step(Thrown(ForeignKeyViolation), st)
      else
        var sites := Where(st.sites, (s: Site) => !SiteOwnedBy(sid, caller)(s));
        var posts := if onDelete == Cascade then Where(st.posts, (p: Post) => !PostsOfSite(sid)(p)) else st.posts;
        Step(Redirect(SitesPath), st.(sites := sites, posts := posts))
  }
}

=== FILE: site_properties.dfy ===
/** What the site actions promise: the gate's two outcomes, the swallowed
    validation reply, subdirectory uniqueness, the exact effect of a
    successful creation, and ownership isolation of the image update and
    the delete. */
module SiteProperties {
  import opened Records
  import opened Tables
  import opened Quota
  import opened SiteActions

  /** A caller without an active plan who already owns a site is sent to
      the pricing page and nothing is written. */
  lemma GateDenial(st: Store, caller: string, form: FormData,
                   format: FormData -> Submission<SiteInput>, newId: string, now: int)
    requires SubscriptionStatus(st, caller) != Some(Active)
    requires exists i :: 0 <= i < |st.sites| && st.sites[i].userId == caller
    ensures CreateSiteAction(st, caller, form, format, newId, now) == Step(Redirect(PricingPath), st)
  {
  }

  /** A submission that fails validation past the gate still ends on the
      sites list, and nothing is written: the reply never reaches the form. */
  lemma SwallowedReply(st: Store, caller: string, form: FormData,
                       format: FormData -> Submission<SiteInput>, newId: string, now: int)
    requires MayCreateSite(SubscriptionStatus(st, caller), |OwnedSites(st, caller)|)
    requires ValidateSite(st, form, format).Invalid?
    ensures CreateSite(st, caller, form, format, newId, now).Replied?
    ensures CreateSiteAction(st, caller, form, format, newId, now) == Step(Redirect(SitesPath), st)
  {
  }

  /** Submitting a subdirectory some site already has fails validation with
      an error on that field (when the other fields are well-formed), and
      no site is written, whoever owns the existing one. */
  lemma TakenSubdirectoryRejected(st: Store, caller: string, form: FormData,
                                  format: FormData -> Submission<SiteInput>, newId: string, now: int)
    requires "subdirectory" in form
    requires exists i :: 0 <= i < |st.sites| && st.sites[i].subdirectory == form["subdirectory"]
    ensures ValidateSite(st, form, format).Invalid?
    ensures format(form).Valid? ==> "subdirectory" in ValidateSite(st, form, format).errors
    ensures CreateSiteAction(st, caller, form, format, newId, now).store == st
    ensures CreateSiteAction(st, caller, form, format, newId, now).outcome
              in {Redirect(SitesPath), Redirect(PricingPath)}
  {
  }

  /** A successful creation appends exactly one site: owned by the caller,
      with the validated name, description and subdirectory; every existing
      site keeps its place and value. Both the subdirectory as submitted
      (which the validator looks up) and the one the schema produces
      (which is inserted) must be free. */
  lemma SiteCreated(st: Store, caller: string, form: FormData,
                    format: FormData -> Submission<SiteInput>, newId: string, now: int)
    requires MayCreateSite(SubscriptionStatus(st, caller), |OwnedSites(st, caller)|)
    requires format(form).Valid?
    requires IsSubdirectoryUnique(st, form)
    requires forall i :: 0 <= i < |st.sites| ==> st.sites[i].subdirectory != format(form).value.subdirectory
    requires forall i :: 0 <= i < |st.sites| ==> st.sites[i].id != newId
    ensures var v := format(form).value;
            var r := CreateSiteAction(st, caller, form, format, newId, now);
            && r.outcome == Redirect(SitesPath)
            && |r.store.sites| == |st.sites| + 1
            && (forall i :: 0 <= i < |st.sites| ==> r.store.sites[i] == st.sites[i])
            && r.store.sites[|st.sites|] == Site(newId, v.name, v.description, v.subdirectory, None, caller, now)
            && r.store.posts == st.posts
  {
  }

  /** The database's unique constraint is reached only when the generated
      id clashes or the validated subdirectory differs from the submitted
      text the uniqueness check looked up. */
  lemma InsertThrowsOnlyOnMismatch(st: Store, caller: string, form: FormData,
                                   format: FormData -> Submission<SiteInput>, newId: string, now: int)
    requires CreateSiteAction(st, caller, form, format, newId, now).outcome.Thrown?
    ensures format(form).Valid?
    ensures HasKey(st.sites, SiteId, newId)
            || Field(form, "subdirectory") != Some(format(form).value.subdirectory)
  {
  }

  /** Counterexample for the swallowed reply: a first site submitted with
      an invalid form by a free user. As written the user lands on the sites
      list with no error shown; the intended action returns the errors. */
  lemma SwallowedReplyExample()
    ensures var st := Store([], [], map[]);
            var format := (f: FormData) => Invalid(map["name" := ["Required"]]);
            && CreateSiteAction(st, "u1", map[], format, "s1", 0) == Step(Redirect(SitesPath), st)
            && CreateSiteActionIntended(st, "u1", map[], format, "s1", 0)
               == Step(Reply(map["name" := ["Required"]]), st)
  {
  }

  /** The corrected action differs from the one as written exactly where
      the validation reply was dropped. */
  lemma IntendedDiffersOnlyOnReply(st: Store, caller: string, form: FormData,
                                   format: FormData -> Submission<SiteInput>, newId: string, now: int)
    ensures var fixed := CreateSiteActionIntended(st, caller, form, format, newId, now);
            var asWritten := CreateSiteAction(st, caller, form, format, newId, now);
            (fixed != asWritten <==> fixed.outcome.Reply?)
            && fixed.store == asWritten.store
  {
  }

  /** `UpdateImage` changes at most the caller's site with the submitted id
      and, on it, only `imageUrl`; other users' sites never change. */
  lemma UpdateImageIsolation(st: Store, caller: string, form: FormData)
    ensures var r := UpdateImage(st, caller, form);
            && (forall i :: 0 <= i < |st.sites| && st.sites[i].userId != caller
                  ==> r.store.sites[i] == st.sites[i])
            && (forall i :: 0 <= i < |st.sites| ==>
                  r.store.sites[i] == st.sites[i].(imageUrl := r.store.sites[i].imageUrl))
            && (forall i :: 0 <= i < |st.sites| && r.store.sites[i] != st.sites[i]
                  ==> "siteId" in form && st.sites[i].id == form["siteId"])
  {
  }

  /** Another user's site cannot be updated: when no site of the caller has
      the submitted id, the update throws "record not found" and nothing
      changes, even though a site with that id exists. */
  lemma UpdateForeignSiteFails(st: Store, caller: string, form: FormData, j: nat)
    requires UniqueBy(st.sites, SiteId)
    requires "siteId" in form
    requires j < |st.sites| && st.sites[j].id == form["siteId"] && st.sites[j].userId != caller
    ensures UpdateImage(st, caller, form) == Step(Thrown(RecordNotFound), st)
  {
  }

  /** `DeleteSite` removes exactly the caller's site with the submitted id:
      every other site survives, the removed one is gone, and posts change
      only under a cascading schema, which removes exactly the posts that
      pointed at it, whoever wrote them. */
  lemma DeleteSiteIsolation(st: Store, caller: string, form: FormData, onDelete: OnDelete)
    requires DeleteSite(st, caller, form, onDelete).outcome.Redirect?
    ensures var r := DeleteSite(st, caller, form, onDelete);
            var sid := form["siteId"];
            && (forall i :: 0 <= i < |st.sites| && !(st.sites[i].id == sid && st.sites[i].userId == caller)
                  ==> st.sites[i] in r.store.sites)
            && (forall s :: s in r.store.sites ==> s in st.sites && !(s.id == sid && s.userId == caller))
            && (forall i :: 0 <= i < |st.posts| && st.posts[i].siteId != sid ==> st.posts[i] in r.store.posts)
            && (forall p :: p in r.store.posts ==> p in st.posts && p.siteId != sid)
  {
    var r := DeleteSite(st, caller, form, onDelete);
    var sid := form["siteId"];
    forall s | s in r.store.sites
      ensures s in st.sites && !(s.id == sid && s.userId == caller)
    {
      var k :| 0 <= k < |r.store.sites| && r.store.sites[k] == s;
    }
    if onDelete == Restrict {
      forall p | p in st.posts
        ensures p.siteId != sid
      {
        var k :| 0 <= k < |st.posts| && st.posts[k] == p;
        assert !PostsOfSite(sid)(st.posts[k]);
      }
    } else {
      forall p | p in r.store.posts
        ensures p in st.posts && p.siteId != sid
      {
        var k :| 0 <= k < |r.store.posts| && r.store.posts[k] == p;
        assert !PostsOfSite(sid)(r.store.posts[k]);
      }
      forall i | 0 <= i < |st.posts| && st.posts[i].siteId != sid
        ensures st.posts[i] in r.store.posts
      {
        assert !PostsOfSite(sid)(st.posts[i]);
      }
    }
  }
}

=== FILE: tables.dfy ===
/** Row-level operations of the database as the actions use them: a filtered
    scan (`where`), an in-place rewrite of the rows a filter matches
    (`update`), and the uniqueness of a column. Generic over the row type. */
module Tables {

  /** The rows satisfying `p`, in storage order. */
  function Where<T>(rows: seq<T>, p: T -> bool): (r: seq<T>)
    ensures |r| <= |rows|
    ensures forall i :: 0 <= i < |r| ==> r[i] in rows && p(r[i])
    ensures forall i :: 0 <= i < |rows| && p(rows[i]) ==> rows[i] in r
    ensures multiset(r) <= multiset(rows)
    ensures forall i :: 0 <= i < |rows| && p(rows[i]) ==> multiset(r)[rows[i]] == multiset(rows)[rows[i]]
  {
    if |rows| == 0 then []
    else
      assert rows == [rows[0]] + rows[1..];
      if p(rows[0]) then [rows[0]] + Where(rows[1..], p)
      else Where(rows[1..], p)
  }

  /** Does some row satisfy `p`? */
  predicate Any<T>(rows: seq<T>, p: T -> bool)
  {
    exists i :: 0 <= i < |rows| && p(rows[i])
  }

  /** Each row satisfying `p` replaced by `f` of it; the others untouched. */
  function Rewrite<T>(rows: seq<T>, p: T -> bool, f: T -> T): (r: seq<T>)
    ensures |r| == |rows|
    ensures forall i :: 0 <= i < |rows| && p(rows[i]) ==> r[i] == f(rows[i])
    ensures forall i :: 0 <= i < |rows| && !p(rows[i]) ==> r[i] == rows[i]
  {
    if |rows| == 0 then []
    else [if p(rows[0]) then f(rows[0]) else rows[0]] + Rewrite(rows[1..], p, f)
  }

  /** No two rows agree on `key`. */
  predicate UniqueBy<T, K(==)>(rows: seq<T>, key: T -> K)
  {
    forall i, j :: 0 <= i < j < |rows| ==> key(rows[i]) != key(rows[j])
  }

  /** Some row has key `k`. */
  predicate HasKey<T, K(==)>(rows: seq<T>, key: T -> K, k: K)
  {
    exists i :: 0 <= i < |rows| && key(rows[i]) == k
  }

  /** A filtered scan keeps a unique column unique. */
  lemma {:induction false} WhereKeepsUnique<T, K>(rows: seq<T>, p: T -> bool, key: T -> K)
    requires UniqueBy(rows, key)
    ensures UniqueBy(Where(rows, p), key)
  {
    if |rows| > 0 {
      var tail := rows[1..];
      assert UniqueBy(tail, key) by {
        forall i, j | 0 <= i < j < |tail|
          ensures key(tail[i]) != key(tail[j])
        {
          assert tail[i] == rows[i + 1] && tail[j] == rows[j + 1];
        }
      }
      WhereKeepsUnique(tail, p, key);
      var w := Where(tail, p);
      if p(rows[0]) {
        forall y | y in w
          ensures key(y) != key(rows[0])
        {
          var j :| 0 <= j < |tail| && tail[j] == y;
          assert rows[j + 1] == y;
        }
        UniqueCons(rows[0], w, key);
      }
    }
  }

  /** A filter that rejects some row is strictly shorter than the table. */
  lemma {:induction false} WhereDropsMatch<T>(rows: seq<T>, p: T -> bool, i: nat)
    requires i < |rows| && !p(rows[i])
    ensures |Where(rows, p)| < |rows|
  {
    if i > 0 {
      WhereDropsMatch(rows[1..], p, i - 1);
    }
  }

  /** Prepending a row whose key is new keeps a column unique. */
  lemma UniqueCons<T, K>(x: T, w: seq<T>, key: T -> K)
    requires UniqueBy(w, key)
    requires forall y :: y in w ==> key(y) != key(x)
    ensures UniqueBy([x] + w, key)
  {
  }
}
